=== FILE: README.md ===
# SpanState: a verified model of an OpenTracing span's state record

This project models `SpanState`, the record one span of the eBay
`opentracing-basic` tracer keeps while it is active. A span has a fixed
identity: its trace context, start time and map of causal references
(`child_of`, `follows_from`). It also has parts that change while it is
active: the operation name, the tag map, the log list and the finish time.
The model covers the constructor, the read accessors, the four mutators and
the diagnostic `toString`. That line prints tag keys but never tag values.

The Java class is a mutable object. Here it is an immutable datatype, and
each mutator is a pure function from the old record to the new one.

- Fields the Java code leaves `null` until first use (tags, logs, finish
  unit) are `Option`. Reads map an absent tag map or log list to an empty one.
- A Java argument that may be `null` is an `Option` parameter. A call that
  throws is a `Failure` result carrying a `SpanError`, and the caller keeps
  the unchanged record.
- `java.util.concurrent.TimeUnit.convert` is a pure function over the seven
  units on 64-bit `long`s. Toward a coarser unit it truncates toward zero.
  Toward a finer unit it saturates at `Long.MIN_VALUE` / `Long.MAX_VALUE`.
- The trace context (`InternalSpanContext<T>`) and `LogEvent` are type
  parameters `C` and `E`. The rendering of a context is a parameter
  `show: C -> string`. The iteration order of the tag `HashMap` is a
  parameter `order`, which must list every key once.

Modules:

- `Wrappers` holds `Option`, `Result` and `Lookup`, which models
  `Map.get` returning null.
- `TimeUnits` holds the units, the `long` range and `Convert`.
- `Text` holds comma joining, decimal rendering of a `long`, and a reader
  for each.
- `SpanStates` holds the record, the constructor, the accessors and the
  mutators.
- `SpanHistory` describes a span's lifetime as a sequence of mutator calls
  and proves what holds after any such sequence.
- `SpanText` holds `toString`, built as a `Description` that is then
  rendered piece by piece.
- `Scenario` follows one span from creation to finish.

Three behaviours of the code that a caller might not expect; the model keeps them:

- `getReferences` answers absent (Java `null`) for a reference type the
  constructor was not given. It does not return an empty list.
- `setFinishTime` has no set-once guard, so a second call overwrites the
  first.
- `getFinishTime` before any finish time is set throws. The finish unit is
  still `null` and `TimeUnit.convert` dereferences it. It does not return a
  default value. The model answers `Failure(FinishTimeNotSet)`.

## Model

| member | source | states |
|---|---|---|
| TimeUnits.Convert | src/main/java/com/ebay/opentracing/basic/SpanState.java:70-73 | In the same unit the duration is unchanged. Toward a coarser unit the result is the quotient rounded toward zero: the remainder has the sign of the input and is smaller than the ratio. Toward a finer unit the result is the exact product clamped to the `long` range, which is what the JDK's divide-then-compare guards compute. |
| TimeUnits.ConvertRoundTrip | src/main/java/com/ebay/opentracing/basic/SpanState.java:70-73 | Converting to a finer unit and back gives the original duration whenever the exact product fits in a `long`. |
| TimeUnits.ConvertMonotone | src/main/java/com/ebay/opentracing/basic/SpanState.java:70-73 | Two durations in the same unit keep their order when both are converted to any one unit. |
| TimeUnits.ConvertViaNanos | src/main/java/com/ebay/opentracing/basic/SpanState.java:70-73 | Converting from any unit to any other equals going through exact nanoseconds: scale up, divide with truncation toward zero, then clamp to the `long` range. |
| TimeUnits.ConvertMonotoneAcrossUnits | src/main/java/com/ebay/opentracing/basic/SpanState.java:70-82 | Two durations in different units whose exact lengths are ordered keep that order when both are converted to any one unit. |
| Text.JoinSplitRoundTrip | src/main/java/com/ebay/opentracing/basic/SpanState.java:132-155 | A non-empty list joined with commas, as the reference loops do, splits back into exactly that list when no element contains a comma. |
| Text.DecimalRoundTrip | src/main/java/com/ebay/opentracing/basic/SpanState.java:157-163 | The decimal text appended for a millisecond timestamp reads back as the same integer, negatives included. |
| SpanStates.Create | src/main/java/com/ebay/opentracing/basic/SpanState.java:40-73 | The constructor succeeds exactly when context, name, start unit and reference map are non-null. A fresh span reads back its context and name. Its start time reads as the given stamp in the start unit, and in every unit as that stamp converted from the start unit. It reads the given tags, or none when null. Its logs are empty and it has no finish time. `getReferences(t)` answers the given list for a known type and absent otherwise. |
| SpanStates.GetStartTime | src/main/java/com/ebay/opentracing/basic/SpanState.java:70-73 | In the recorded unit it returns the recorded stamp exactly. In a coarser unit it returns the truncated quotient, and in a finer one the saturated product. |
| SpanStates.GetFinishTime | src/main/java/com/ebay/opentracing/basic/SpanState.java:79-82 | It succeeds exactly when a finish time has been set. In the unit it was set in, it returns that stamp. |
| SpanStates.StartNotAfterFinish | src/main/java/com/ebay/opentracing/basic/SpanState.java:24-38 | When a finish time is set and its instant is not before the start instant, the finish time can be read and is not before the start time, whatever unit both are read in. |
| SpanStates.GetTags | src/main/java/com/ebay/opentracing/basic/SpanState.java:97-100 | While the tag map is still null it reads as an empty map. |
| SpanStates.GetLogEvents | src/main/java/com/ebay/opentracing/basic/SpanState.java:115-118 | While the log list is still null it reads as an empty list. |
| SpanStates.SetOperationName | src/main/java/com/ebay/opentracing/basic/SpanState.java:190-193 | A null name is rejected. Any other name becomes the operation name, and every other field keeps its value. |
| SpanStates.SetFinishTime | src/main/java/com/ebay/opentracing/basic/SpanState.java:201-205 | A null unit is rejected. Otherwise the finish time reads back as the stamp in its own unit, and as its conversion in every other unit. Every other field keeps its value. |
| SpanStates.PutTag | src/main/java/com/ebay/opentracing/basic/SpanState.java:207-213 | The tag map now exists and maps the key to the new value. The key set grows by exactly that key, every other key keeps its value, and every other field keeps its value. |
| SpanStates.AddLogEvent | src/main/java/com/ebay/opentracing/basic/SpanState.java:215-220 | The log list now exists and is one longer. Its earlier entries are unchanged and in order, and the new event is last. Every other field keeps its value. |
| SpanHistory.RejectedCallChangesNothing | src/main/java/com/ebay/opentracing/basic/SpanState.java:190-205 | The only calls that fail are a rename to null and a finish time with a null unit. A failed call leaves the state exactly as it was. |
| SpanHistory.RunKeepsIdentity | src/main/java/com/ebay/opentracing/basic/SpanState.java:24-27 | After any sequence of mutator calls, the context, the start time in every unit and the references for every type are what they were. |
| SpanHistory.RunTagsLastWriteWins | src/main/java/com/ebay/opentracing/basic/SpanState.java:207-213 | After any sequence of calls, each key holds the value of its last write. A key no call wrote keeps its earlier value, or stays absent. |
| SpanHistory.RunTagsGrow | src/main/java/com/ebay/opentracing/basic/SpanState.java:207-213 | No sequence of calls removes a tag key. |
| SpanHistory.RunLogsAppend | src/main/java/com/ebay/opentracing/basic/SpanState.java:215-220 | After any sequence of calls, the log is the earlier log followed by the appended events in call order. |
| SpanHistory.RunNameLastWins | src/main/java/com/ebay/opentracing/basic/SpanState.java:190-193 | After any sequence of calls, the name is the last non-null name passed, or the earlier name if there was none. |
| SpanHistory.RunFinishLastWins | src/main/java/com/ebay/opentracing/basic/SpanState.java:201-205 | After any sequence of calls, the finish time is the last one set with a non-null unit, converted to the requested unit. Later calls overwrite earlier ones, and with no such call the finish time is unchanged. |
| SpanHistory.UntouchedCollectionsReadEmpty | src/main/java/com/ebay/opentracing/basic/SpanState.java:97-118 | A span created without tags reads an empty tag map after any calls that include no tag write. It reads an empty log after any calls that append no event. |
| SpanHistory.PutTagOverwrites | src/main/java/com/ebay/opentracing/basic/SpanState.java:207-213 | Writing a key twice gives the same state as writing only the second value. |
| SpanHistory.SetFinishTimeOverwrites | src/main/java/com/ebay/opentracing/basic/SpanState.java:201-205 | Setting the finish time twice gives the same state as setting only the second time. |
| SpanText.ToStringFrame | src/main/java/com/ebay/opentracing/basic/SpanState.java:128-130 | The line starts with `Span{operationName='`, the name and `'`, and ends with `}`. |
| SpanText.ToStringIgnoresTagValues | src/main/java/com/ebay/opentracing/basic/SpanState.java:165-180 | Two states that differ only in tag values, with the same keys, give the same line. Tag values never influence it. |
| SpanText.ToStringIgnoresLogs | src/main/java/com/ebay/opentracing/basic/SpanState.java:123-183 | The log list never reaches the line: replacing the logs, or the absence of logs, leaves the line unchanged. |
| SpanText.FinishSegmentInserted | src/main/java/com/ebay/opentracing/basic/SpanState.java:157-163 | Setting the finish time of an unfinished span inserts exactly one `,finishTimeMs=` segment with that time in milliseconds. The rest of the line is unchanged. |
| SpanText.FinishSegmentOnlyWhenFinished | src/main/java/com/ebay/opentracing/basic/SpanState.java:159-163 | With no finish time, the line has no finish segment. With one, the line contains the segment with the finish time in milliseconds. |
| SpanText.ReferencesRendered | src/main/java/com/ebay/opentracing/basic/SpanState.java:132-155 | A non-empty child-of or follows-from list appears as `,childOf=[...]` or `,followsFrom=[...]`, holding its rendered contexts joined with commas. |
| SpanText.ReferencesHiddenWhenEmpty | src/main/java/com/ebay/opentracing/basic/SpanState.java:132-155 | An absent or empty child-of or follows-from list leaves no piece of the line that opens with `,childOf=[` or `,followsFrom=[`. Together with `ReferencesRendered`, each list's piece is there exactly when the list is present and non-empty. |
| SpanText.OtherReferencesHidden | src/main/java/com/ebay/opentracing/basic/SpanState.java:132-155 | Reference types other than child-of and follows-from never change the line. An empty list renders exactly like an absent one. |
| SpanText.TagKeysRendered | src/main/java/com/ebay/opentracing/basic/SpanState.java:165-180 | With at least one tag, the line contains `,tags=[...]` with the keys comma-joined in iteration order. With none, no piece of the line opens with `,tags=[`. |
| Scenario.CheckoutAccessors | src/main/java/com/ebay/opentracing/basic/SpanState.java:70-118 | Take a span created as `checkout` at 1000 ms with one child-of parent, tagged `http.status=200`, and finished at 2 000 000 µs. It reads finish 2000 ms and start 1 000 000 µs. It reads that parent as child-of, absent follows-from, that one tag and an empty log. |
| Scenario.CheckoutDiagnostic | src/main/java/com/ebay/opentracing/basic/SpanState.java:126-183 | That span's line is `Span{operationName='checkout'`, `,childOf=[<parent>]`, `,startTimeMs=1000`, `,finishTimeMs=2000`, `,tags=[http.status]` and `}`. The tags piece holds only the key. |

## Left out

- Thread safety is not modelled. That covers the `synchronizedMap` / `synchronizedList` wrappers and the unsynchronized null-check race when the tag map and log list are first allocated. Each call is treated as atomic; a sequential model cannot check concurrency.
- Aliasing is not modelled. The constructor keeps the caller's tag map, so `putTag` writes through to it. `getTags` returns a live read-only view, and `getLogEvents` returns the list itself. The model copies values instead. The model also assumes that a tag map given to the constructor accepts `put`. A caller's unmodifiable map, such as `Collections.emptyMap()`, would make `putTag` throw `UnsupportedOperationException`; `PutTag` never fails.
- Some nulls are not modelled: null tag keys or values, a reference type mapped to a null list, a null log event, and a null unit passed to `getStartTime` / `getFinishTime`. Keys and values are plain strings, and units passed to the getters are never null.
- `getSpanContext`, `getOperationName` and `getReferences` only return a field or a map lookup. They are modelled without contracts of their own. `Create` states what they return on a fresh span; for `GetReferences` that is `forall t :: GetReferences(r.value, t) == Lookup(references.value, t)`. `SetOperationName` and the `SpanHistory` lemmas, `RunKeepsIdentity` among them, state what they return afterwards.
- `ToString` carries no contract of its own. What it promises is stated by the `SpanText` lemmas about `Render(Describe(..))`: `ToStringFrame`, `ToStringIgnoresTagValues`, `ToStringIgnoresLogs`, `FinishSegmentInserted`, `FinishSegmentOnlyWhenFinished`, `ReferencesRendered`, `ReferencesHiddenWhenEmpty`, `OtherReferencesHidden` and `TagKeysRendered`.
- The exception type and message thrown by `TracerPreconditions.checkNotNull` are not modelled. Only the argument name in `NullArgument` records which check failed. `TracerPreconditions` is not part of this model.
- `SpanImpl`, `SpanFinisher` and `BaseSpanImpl` are not part of this model. They own finish-exactly-once and reporting.
- `InternalSpanContext.toString` is the `show` parameter. `LogEvent` contents are opaque, and the diagnostic line never renders them.
- The iteration order of the tag `HashMap` is the `order` parameter. The model requires only that it lists each key once.
- SpanText.FinishSegmentOnlyWhenFinished: with no finish time, it states that the line is built without a finish segment. It does not state that the text `,finishTimeMs=` cannot occur inside a name, context or tag key.
- SpanText.ReferencesRendered: it states that the segment occurs in the line, not where. Its position after the name and before the start time follows from `Describe` and the order of the rendered pieces.
- SpanText.ReferencesHiddenWhenEmpty: absence is stated for the pieces the line is built from, not for its text. A name, rendered context or tag key may itself contain `,childOf=[` or `,followsFrom=[`.
- SpanText.TagKeysRendered: with no tags, absence is stated for the pieces of the line, not for its text, for the same reason.

=== FILE: scenario.dfy ===
/** One span's life, end to end: created as `checkout` at 1000 ms with one
    child-of reference, tagged, then finished at 2 000 000 microseconds. */
module Scenario {
  import opened Wrappers
  import opened TimeUnits
  import opened Text
  import opened SpanStates
  import opened SpanHistory
  import opened SpanText

  function Operations<E>(): seq<Op<E>>
  {
    [Tag("http.status", "200"), SetFinish(Some(Microseconds), 2_000_000)]
  }

  function Checkout<C, E>(parent: C): SpanState<C, E>
  {
    Run(Create(Some(parent), Some("checkout"), Some(Milliseconds), 1000, None, Some(map[ChildOf := [parent]])).value,
        Operations())
  }

  /** The state the calls leave behind, field by field. */
  lemma CheckoutState<C, E>(parent: C)
    ensures Checkout<C, E>(parent)
         == SpanState(parent, "checkout", Milliseconds, 1000, map[ChildOf := [parent]],
                      Some(map["http.status" := "200"]), None, Some(Microseconds), 2_000_000)
  {
    var c: SpanState<C, E> := Create(Some(parent), Some("checkout"), Some(Milliseconds), 1000, None, Some(map[ChildOf := [parent]])).value;
    var ops: seq<Op<E>> := Operations();
    var s1 := PutTag(c, "http.status", "200");
    assert Run(c, ops[..1]) == s1 by {
      assert ops[..1][..0] == [];
    }
    assert ops[..|ops| - 1] == ops[..1];
    assert Run(c, ops) == SetFinishTime(s1, Some(Microseconds), 2_000_000).value;
  }

  /** The accessors report the finish time in milliseconds, the one parent
      and the one tag. */
  lemma CheckoutAccessors<C, E>(parent: C)
    ensures GetOperationName(Checkout<C, E>(parent)) == "checkout"
    ensures GetStartTime(Checkout<C, E>(parent), Milliseconds) == 1000
    ensures GetFinishTime(Checkout<C, E>(parent), Milliseconds) == Success(2000)
    ensures GetStartTime(Checkout<C, E>(parent), Microseconds) == 1_000_000
    ensures GetReferences(Checkout<C, E>(parent), ChildOf) == Some([parent])
    ensures GetReferences(Checkout<C, E>(parent), FollowsFrom) == None
    ensures GetTags(Checkout<C, E>(parent)) == map["http.status" := "200"]
    ensures GetLogEvents(Checkout<C, E>(parent)) == []
  {
    CheckoutState<C, E>(parent);
    assert FollowsFrom !in map[ChildOf := [parent]];
  }

  /** What the diagnostic line of the checkout span shows. */
  lemma CheckoutDescription<C, E>(parent: C, show: C -> string)
    ensures EnumeratesKeys(["http.status"], GetTags(Checkout<C, E>(parent)).Keys)
    ensures Describe(Checkout<C, E>(parent), show, ["http.status"])
         == Description("checkout", Some([show(parent)]), None, 1000, Some(2000), Some(["http.status"]))
  {
    CheckoutAccessors<C, E>(parent);
    var s := Checkout<C, E>(parent);
    var tags := GetTags(s);
    assert tags.Keys == {"http.status"};
    assert |tags| == 1;
    var d := Describe(s, show, ["http.status"]);
    assert d.childOf == Some([show(parent)]) by {
      var shown := Shown(Some([parent]), show);
      assert |shown.value| == 1 && shown.value[0] == show([parent][0]);
      assert shown.value == [show(parent)];
    }
    assert d.tagKeys == Some(["http.status"]);
  }

  /** The pieces of the checkout span's diagnostic line. */
  function CheckoutLine(shownParent: string): seq<string>
  {
    ["Span{operationName='checkout'", ",childOf=[" + shownParent + "]", ",startTimeMs=1000",
     ",finishTimeMs=2000", ",tags=[http.status]", "}"]
  }

  lemma RenderCheckout(shownParent: string)
    ensures Segments(Description("checkout", Some([shownParent]), None, 1000, Some(2000), Some(["http.status"])))
         == CheckoutLine(shownParent)
  {
    OpenPiece();
    ChildPiece(shownParent);
    StartPiece();
    FinishPiece();
    TagsPiece();
  }

  lemma OpenPiece()
    ensures OpenSegment("checkout") == "Span{operationName='checkout'"
  {
  }

  lemma ChildPiece(shownParent: string)
    ensures ListText("childOf", [shownParent]) == ",childOf=[" + shownParent + "]"
  {
  }

  lemma StartPiece()
    ensures ",startTimeMs=" + DecimalString(1000) == ",startTimeMs=1000"
  {
  }

  lemma FinishPiece()
    ensures FinishSegment(2000) == ",finishTimeMs=2000"
  {
  }

  lemma TagsPiece()
    ensures ListText("tags", ["http.status"]) == ",tags=[http.status]"
  {
  }

  /** The diagnostic line names the tag key but not its value: it is the
      pieces of `CheckoutLine`, one after another. */
  lemma CheckoutDiagnostic<C, E>(parent: C, show: C -> string)
    ensures EnumeratesKeys(["http.status"], GetTags(Checkout<C, E>(parent)).Keys)
    ensures ToString(Checkout<C, E>(parent), show, ["http.status"]) == Concat(CheckoutLine(show(parent)))
  {
    CheckoutDescription<C, E>(parent, show);
    RenderCheckout(show(parent));
  }
}

=== FILE: spanhistory.dfy ===
/** A span's active lifetime as a sequence of mutator calls, each applied
    atomically. A call that throws leaves the state as it was. The lemmas
    here describe the state after any such sequence: identity, start time
    and references never change; the last tag write per key wins; the log is
    the events appended, in order; the last accepted name and finish time
    are the ones that stick. */
module SpanHistory {
  import opened Wrappers
  import opened TimeUnits
  import opened SpanStates

  /** One call of a mutator on `SpanState`. */
  datatype Op<E> =
    | SetName(name: Option<string>)
    | SetFinish(unit: Option<TimeUnit>, stamp: Long)
    | Tag(key: string, value: string)
    | Log(event: E)

  function Step<C, E>(s: SpanState<C, E>, op: Op<E>): Result<SpanState<C, E>, SpanError>
  {
    match op
    case SetName(n) => SetOperationName(s, n)
    case SetFinish(u, t) => SetFinishTime(s, u, t)
    case Tag(k, v) => Success(PutTag(s, k, v))
    case Log(e) => Success(AddLogEvent(s, e))
  }

  /** The state after the calls in `ops`, in order; a rejected call is skipped. */
  function Run<C, E>(s: SpanState<C, E>, ops: seq<Op<E>>): SpanState<C, E>
  {
    if |ops| == 0 then s
    else
      var prev := Run(s, ops[..|ops| - 1]);
      match Step(prev, ops[|ops| - 1])
      case Success(next) => next
      case Failure(_) => prev
  }

  /** A rejected call changes nothing. */
  lemma RejectedCallChangesNothing<C, E>(s: SpanState<C, E>, op: Op<E>)
    requires Step(s, op).Failure?
    ensures Run(s, [op]) == s
    ensures op == SetName(None) || (op.SetFinish? && op.unit.None?)
  {
    assert [op][..0] == [];
  }

  /** The value most recently written to `key` by a call in `ops`. */
  function LastTagWrite<E>(ops: seq<Op<E>>, key: string): Option<string>
  {
    if |ops| == 0 then None
    else if ops[|ops| - 1].Tag? && ops[|ops| - 1].key == key then Some(ops[|ops| - 1].value)
    else LastTagWrite(ops[..|ops| - 1], key)
  }

  /** The events appended by the calls in `ops`, in call order. */
  function LoggedEvents<E>(ops: seq<Op<E>>): seq<E>
  {
    if |ops| == 0 then []
    else LoggedEvents(ops[..|ops| - 1]) + (if ops[|ops| - 1].Log? then [ops[|ops| - 1].event] else [])
  }

  /** The most recent non-null name passed to a rename in `ops`. */
  function LastName<E>(ops: seq<Op<E>>): Option<string>
  {
    if |ops| == 0 then None
    else if ops[|ops| - 1].SetName? && ops[|ops| - 1].name.Some? then ops[|ops| - 1].name
    else LastName(ops[..|ops| - 1])
  }

  /** The most recent finish time with a non-null unit set in `ops`. */
  function LastFinish<E>(ops: seq<Op<E>>): Option<(TimeUnit, Long)>
  {
    if |ops| == 0 then None
    else if ops[|ops| - 1].SetFinish? && ops[|ops| - 1].unit.Some? then
      Some((ops[|ops| - 1].unit.value, ops[|ops| - 1].stamp))
    else LastFinish(ops[..|ops| - 1])
  }

  /** The fields set by the constructor and never assigned again. */
  ghost predicate SameFixedFields<C, E>(s: SpanState<C, E>, t: SpanState<C, E>)
  {
    && s.spanContext == t.spanContext
    && s.startTimeUnit == t.startTimeUnit
    && s.startTimeStamp == t.startTimeStamp
    && s.references == t.references
  }

  lemma {:induction false} RunKeepsFixedFields<C, E>(s: SpanState<C, E>, ops: seq<Op<E>>)
    ensures SameFixedFields(Run(s, ops), s)
  {
    if |ops| > 0 {
      RunKeepsFixedFields(s, ops[..|ops| - 1]);
    }
  }

  /** Context, start time and references are fixed for the whole lifetime. */
  lemma {:induction false} RunKeepsIdentity<C, E>(s: SpanState<C, E>, ops: seq<Op<E>>)
    ensures GetSpanContext(Run(s, ops)) == GetSpanContext(s)
    ensures forall u :: GetStartTime(Run(s, ops), u) == GetStartTime(s, u)
    ensures forall t :: GetReferences(Run(s, ops), t) == GetReferences(s, t)
  {
    RunKeepsFixedFields(s, ops);
  }

  /** Tags: a key holds the value of its last write, or its earlier value
      when no call wrote it. */
  lemma {:induction false} RunTagsLastWriteWins<C, E>(s: SpanState<C, E>, ops: seq<Op<E>>, key: string)
    ensures Lookup(GetTags(Run(s, ops)), key) ==
      if LastTagWrite(ops, key).Some? then LastTagWrite(ops, key) else Lookup(GetTags(s), key)
  {
    if |ops| > 0 {
      RunTagsLastWriteWins(s, ops[..|ops| - 1], key);
    }
  }

  /** Tags are only ever added: no key disappears. */
  lemma {:induction false} RunTagsGrow<C, E>(s: SpanState<C, E>, ops: seq<Op<E>>)
    ensures GetTags(s).Keys <= GetTags(Run(s, ops)).Keys
  {
    if |ops| > 0 {
      RunTagsGrow(s, ops[..|ops| - 1]);
    }
  }

  /** Logs: the earlier events followed by every appended event, in call order. */
  lemma {:induction false} RunLogsAppend<C, E>(s: SpanState<C, E>, ops: seq<Op<E>>)
    ensures GetLogEvents(Run(s, ops)) == GetLogEvents(s) + LoggedEvents(ops)
  {
    if |ops| > 0 {
      RunLogsAppend(s, ops[..|ops| - 1]);
    }
  }

  /** The name is the last one accepted, or the earlier one. */
  lemma {:induction false} RunNameLastWins<C, E>(s: SpanState<C, E>, ops: seq<Op<E>>)
    ensures GetOperationName(Run(s, ops)) == LastName(ops).GetOr(GetOperationName(s))
  {
    if |ops| > 0 {
      RunNameLastWins(s, ops[..|ops| - 1]);
    }
  }

  /** The finish time is the last one accepted, converted to the unit asked
      for; a later call simply overwrites an earlier one. */
  lemma {:induction false} RunFinishLastWins<C, E>(s: SpanState<C, E>, ops: seq<Op<E>>, u: TimeUnit)
    ensures GetFinishTime(Run(s, ops), u) ==
      match LastFinish(ops)
      case Some((fu, ft)) => Success(Convert(ft, fu, u))
      case None => GetFinishTime(s, u)
  {
    if |ops| > 0 {
      RunFinishLastWins(s, ops[..|ops| - 1], u);
    }
  }

  /** A span built without tags reads an empty tag map until the first tag
      write, and an empty log until the first event. */
  lemma {:induction false} UntouchedCollectionsReadEmpty<C, E>(
    created: Result<SpanState<C, E>, SpanError>, ops: seq<Op<E>>,
    spanContext: C, operationName: string, startTimeUnit: TimeUnit, startTimeStamp: Long,
    references: map<string, seq<C>>)
    requires created == Create(Some(spanContext), Some(operationName), Some(startTimeUnit), startTimeStamp,
                               None, Some(references))
    ensures created.Success?
    ensures (forall i :: 0 <= i < |ops| ==> !ops[i].Tag?) ==> GetTags(Run(created.value, ops)) == map[]
    ensures (forall i :: 0 <= i < |ops| ==> !ops[i].Log?) ==> GetLogEvents(Run(created.value, ops)) == []
  {
    var s := created.value;
    if forall i :: 0 <= i < |ops| ==> !ops[i].Tag? {
      forall key | true
        ensures key !in GetTags(Run(s, ops))
      {
        NoTagWriteNoValue(ops, key);
        RunTagsLastWriteWins(s, ops, key);
      }
    }
    if forall i :: 0 <= i < |ops| ==> !ops[i].Log? {
      NoLogNoEvents(ops);
      RunLogsAppend(s, ops);
    }
  }

  lemma {:induction false} NoTagWriteNoValue<E>(ops: seq<Op<E>>, key: string)
    requires forall i :: 0 <= i < |ops| ==> !ops[i].Tag?
    ensures LastTagWrite(ops, key) == None
  {
    if |ops| > 0 {
      NoTagWriteNoValue(ops[..|ops| - 1], key);
    }
  }

  lemma {:induction false} NoLogNoEvents<E>(ops: seq<Op<E>>)
    requires forall i :: 0 <= i < |ops| ==> !ops[i].Log?
    ensures LoggedEvents(ops) == []
  {
    if |ops| > 0 {
      NoLogNoEvents(ops[..|ops| - 1]);
    }
  }

  /** Writing the same key twice is the same as writing only the second value. */
  lemma PutTagOverwrites<C, E>(s: SpanState<C, E>, key: string, v1: string, v2: string)
    ensures PutTag(PutTag(s, key, v1), key, v2) == PutTag(s, key, v2)
  {
    var m := GetTags(s);
    assert m[key := v1][key := v2] == m[key := v2];
  }

  /** Setting the finish time twice is the same as setting only the second. */
  lemma SetFinishTimeOverwrites<C, E>(s: SpanState<C, E>, u1: TimeUnit, t1: Long, u2: TimeUnit, t2: Long)
    ensures SetFinishTime(SetFinishTime(s, Some(u1), t1).value, Some(u2), t2) == SetFinishTime(s, Some(u2), t2)
  {
  }
}

=== FILE: spanstate.dfy ===
/** The span state record of `SpanState.java`: fixed identity, start time and
    references, plus the operation name, tags, logs and finish time that change
    while the span is active. Every mutator is a pure function from the old
    record to the new one; a Java call that throws is a `Failure` that leaves
    the caller holding the unchanged record.

    `C` is the trace-context type (`InternalSpanContext<T>`), `E` the log
    event type; both are opaque here. */
module SpanStates {
  import opened Wrappers
  import opened TimeUnits

  /** `References.CHILD_OF` and `References.FOLLOWS_FROM`. */
  const ChildOf: string := "child_of"
  const FollowsFrom: string := "follows_from"

  /** Why a call fails: the exception the Java code throws. */
  datatype SpanError =
    | NullArgument(argument: string)  // a `checkNotNull` precondition rejected a null
    | FinishTimeNotSet                // `convert` dereferenced the still-null finish unit

  datatype SpanState<C, E> = SpanState(
    spanContext: C,
    operationName: string,
    startTimeUnit: TimeUnit,
    startTimeStamp: Long,
    references: map<string, seq<C>>,
    tags: Option<map<string, string>>,   // null until given or first written
    logs: Option<seq<E>>,                // null until the first event
    finishTimeUnit: Option<TimeUnit>,    // null until a finish time is set
    finishTimeStamp: Long)

  /** The constructor. Context, name, start unit and reference map must be
      non-null; the tag map may be null. */
  function Create<C, E>(
    spanContext: Option<C>,
    operationName: Option<string>,
    startTimeUnit: Option<TimeUnit>,
    startTimeStamp: Long,
    tags: Option<map<string, string>>,
    references: Option<map<string, seq<C>>>
  ): (r: Result<SpanState<C, E>, SpanError>)
    ensures r.Success? <==>
      spanContext.Some? && operationName.Some? && startTimeUnit.Some? && references.Some?
    ensures r.Success? ==>
      && GetSpanContext(r.value) == spanContext.value
      && GetOperationName(r.value) == operationName.value
      && GetStartTime(r.value, startTimeUnit.value) == startTimeStamp
      && (forall u :: GetStartTime(r.value, u) == Convert(startTimeStamp, startTimeUnit.value, u))
      && GetTags(r.value) == tags.GetOr(map[])
      && GetLogEvents(r.value) == []
      && (forall u :: GetFinishTime(r.value, u) == Failure(FinishTimeNotSet))
      && (forall t :: GetReferences(r.value, t) == Lookup(references.value, t))
  {
    if spanContext.None? then Failure(NullArgument("spanContext"))
    else if operationName.None? then Failure(NullArgument("operationName"))
    else if startTimeUnit.None? then Failure(NullArgument("startTimeUnit"))
    else if references.None? then Failure(NullArgument("references"))
    else
      Success(SpanState(spanContext.value, operationName.value, startTimeUnit.value, startTimeStamp,
                        references.value, tags, None, None, 0))
  }

  function GetSpanContext<C, E>(s: SpanState<C, E>): C
  {
    s.spanContext
  }

  /** The start time in unit `u`: exactly the recorded stamp in the unit it
      was recorded in, the truncated quotient in a coarser unit, the
      saturated product in a finer one. */
  function GetStartTime<C, E>(s: SpanState<C, E>, u: TimeUnit): (r: Long)
    ensures u == s.startTimeUnit ==> r == s.startTimeStamp
    ensures Scale(s.startTimeUnit) < Scale(u) ==>
      TruncatedQuotient(s.startTimeStamp, Scale(u) / Scale(s.startTimeUnit), r)
    ensures Scale(s.startTimeUnit) > Scale(u) ==>
      r == Clamp(s.startTimeStamp * (Scale(s.startTimeUnit) / Scale(u)))
  {
    Convert(s.startTimeStamp, s.startTimeUnit, u)
  }

  /** The finish time in unit `u`. Before any finish time is set the source
      unit is null and the conversion throws. */
  function GetFinishTime<C, E>(s: SpanState<C, E>, u: TimeUnit): (r: Result<Long, SpanError>)
    ensures r.Success? <==> s.finishTimeUnit.Some?
    ensures s.finishTimeUnit == Some(u) ==> r == Success(s.finishTimeStamp)
  {
    match s.finishTimeUnit
    case None => Failure(FinishTimeNotSet)
    case Some(fu) => Success(Convert(s.finishTimeStamp, fu, u))
  }

  function GetOperationName<C, E>(s: SpanState<C, E>): string
  {
    s.operationName
  }

  /** The tags; an empty map while none have been given or written. */
  function GetTags<C, E>(s: SpanState<C, E>): (r: map<string, string>)
    ensures s.tags.None? ==> r == map[]
  {
    s.tags.GetOr(map[])
  }

  /** The contexts recorded for `referenceType`; absent (null) for a type
      the constructor was not given. */
  function GetReferences<C, E>(s: SpanState<C, E>, referenceType: string): Option<seq<C>>
  {
    Lookup(s.references, referenceType)
  }

  /** The log events in the order they were added; empty before the first. */
  function GetLogEvents<C, E>(s: SpanState<C, E>): (r: seq<E>)
    ensures s.logs.None? ==> r == []
  {
    s.logs.GetOr([])
  }

  /** Renames the span; a null name is rejected. */
  function SetOperationName<C, E>(s: SpanState<C, E>, name: Option<string>): (r: Result<SpanState<C, E>, SpanError>)
    ensures name.None? <==> r == Failure(NullArgument("operationName"))
    ensures name.Some? ==> r.Success? && GetOperationName(r.value) == name.value
    ensures name.Some? ==> r.value.(operationName := s.operationName) == s
  {
    match name
    case None => Failure(NullArgument("operationName"))
    case Some(n) => Success(s.(operationName := n))
  }

  /** Records the finish time, replacing any earlier one (there is no
      set-once guard); a null unit is rejected. */
  function SetFinishTime<C, E>(s: SpanState<C, E>, unit: Option<TimeUnit>, stamp: Long): (r: Result<SpanState<C, E>, SpanError>)
    ensures unit.None? <==> r == Failure(NullArgument("finishTimeUnit"))
    ensures unit.Some? ==> r.Success?
    ensures unit.Some? ==> GetFinishTime(r.value, unit.value) == Success(stamp)
    ensures unit.Some? ==> forall w :: GetFinishTime(r.value, w) == Success(Convert(stamp, unit.value, w))
    ensures unit.Some? ==> r.value.(finishTimeUnit := s.finishTimeUnit, finishTimeStamp := s.finishTimeStamp) == s
  {
    match unit
    case None => Failure(NullArgument("finishTimeUnit"))
    case Some(u) => Success(s.(finishTimeUnit := Some(u), finishTimeStamp := stamp))
  }

  /** Sets tag `key` to `value`, allocating the tag map on first use. */
  function PutTag<C, E>(s: SpanState<C, E>, key: string, value: string): (r: SpanState<C, E>)
    ensures r.tags.Some?
    ensures key in GetTags(r) && GetTags(r)[key] == value
    ensures GetTags(r).Keys == GetTags(s).Keys + {key}
    ensures forall k :: k in GetTags(s) && k != key ==> GetTags(r)[k] == GetTags(s)[k]
    ensures r.(tags := s.tags) == s
  {
    var m := if s.tags.None? then map[] else s.tags.value;
    s.(tags := Some(m[key := value]))
  }

  /** Appends `event` to the log, allocating the list on first use. */
  function AddLogEvent<C, E>(s: SpanState<C, E>, event: E): (r: SpanState<C, E>)
    ensures r.logs.Some?
    ensures |GetLogEvents(r)| == |GetLogEvents(s)| + 1
    ensures GetLogEvents(r)[..|GetLogEvents(s)|] == GetLogEvents(s)
    ensures GetLogEvents(r)[|GetLogEvents(s)|] == event
    ensures r.(logs := s.logs) == s
  {
    var l := if s.logs.None? then [] else s.logs.value;
    s.(logs := Some(l + [event]))
  }

  /** A finish instant no earlier than the start instant reads no earlier in
      any unit, even when start and finish were recorded in different units. */
  lemma StartNotAfterFinish<C, E>(s: SpanState<C, E>, w: TimeUnit)
    requires s.finishTimeUnit.Some?
    requires s.startTimeStamp * Scale(s.startTimeUnit) <= s.finishTimeStamp * Scale(s.finishTimeUnit.value)
    ensures GetFinishTime(s, w).Success?
    ensures GetStartTime(s, w) <= GetFinishTime(s, w).value
  {
    ConvertMonotoneAcrossUnits(s.startTimeStamp, s.startTimeUnit, s.finishTimeStamp, s.finishTimeUnit.value, w);
  }
}

=== FILE: spantext.dfy ===
/** `SpanState.toString`: a diagnostic line with the operation name, the
    child-of and follows-from contexts, the start and finish times in
    milliseconds and the tag KEYS. Tag values and log events are never
    rendered.

    Two things the Java code leaves to its collaborators are parameters
    here: `show` renders a trace context (`InternalSpanContext.toString`),
    and `order` is the iteration order of the tag map's `HashMap` key set,
    which is unspecified beyond listing every key once. */
module SpanText {
  import opened Wrappers
  import opened TimeUnits
  import opened Text
  import opened SpanStates

  /** `order` lists every key of `keys` exactly once. */
  predicate EnumeratesKeys(order: seq<string>, keys: set<string>)
  {
    && (forall i, j :: 0 <= i < j < |order| ==> order[i] != order[j])
    && (forall k :: k in order ==> k in keys)
    && (forall k :: k in keys ==> k in order)
  }

  /** What the diagnostic line shows, before it is spelled out. */
  datatype Description = Description(
    operationName: string,
    childOf: Option<seq<string>>,
    followsFrom: Option<seq<string>>,
    startTimeMs: Long,
    finishTimeMs: Option<Long>,
    tagKeys: Option<seq<string>>)

  /** The rendered contexts of one reference list; absent when the list is
      absent or empty. */
  function Shown<C>(refs: Option<seq<C>>, show: C -> string): (r: Option<seq<string>>)
    ensures r.Some? <==> refs.Some? && |refs.value| > 0
    ensures r.Some? ==> |r.value| == |refs.value|
    ensures r.Some? ==> forall i :: 0 <= i < |r.value| ==> r.value[i] == show(refs.value[i])
  {
    if refs.Some? && |refs.value| > 0 then
      Some(seq(|refs.value|, i requires 0 <= i < |refs.value| => show(refs.value[i])))
    else None
  }

  /** The content of the diagnostic line, stated through the read accessors. */
  function Describe<C, E>(s: SpanState<C, E>, show: C -> string, order: seq<string>): (d: Description)
    requires EnumeratesKeys(order, GetTags(s).Keys)
    ensures d.operationName == GetOperationName(s)
    ensures d.childOf == Shown(GetReferences(s, ChildOf), show)
    ensures d.followsFrom == Shown(GetReferences(s, FollowsFrom), show)
    ensures d.startTimeMs == GetStartTime(s, Milliseconds)
    ensures d.finishTimeMs.Some? <==> GetFinishTime(s, Milliseconds).Success?
    ensures d.finishTimeMs.Some? ==> GetFinishTime(s, Milliseconds) == Success(d.finishTimeMs.value)
    ensures d.tagKeys.Some? <==> |GetTags(s)| > 0
    ensures d.tagKeys.Some? ==> d.tagKeys.value == order
  {
    Description(
      s.operationName,
      Shown(Lookup(s.references, ChildOf), show),
      Shown(Lookup(s.references, FollowsFrom), show),
      Convert(s.startTimeStamp, s.startTimeUnit, Milliseconds),
      if s.finishTimeUnit.Some? then Some(Convert(s.finishTimeStamp, s.finishTimeUnit.value, Milliseconds)) else None,
      if s.tags.Some? && |s.tags.value| > 0 then Some(order) else None)
  }

  /** The pieces the line is appended from, in order. */
  function ListSegment(caption: string, items: Option<seq<string>>): seq<string>
  {
    if items.Some? then [ListText(caption, items.value)] else []
  }

  /** `,caption=[a,b,c]` */
  function ListText(caption: string, items: seq<string>): string
  {
    "," + caption + "=[" + Join(items) + "]"
  }

  function OpenSegment(name: string): string
  {
    "Span{operationName='" + name + "'"
  }

  function FinishSegment(finishTimeMs: Long): string
  {
    ",finishTimeMs=" + DecimalString(finishTimeMs)
  }

  /** Everything before the finish time. */
  function Front(d: Description): seq<string>
  {
    [OpenSegment(d.operationName)]
    + ListSegment("childOf", d.childOf)
    + ListSegment("followsFrom", d.followsFrom)
    + [",startTimeMs=" + DecimalString(d.startTimeMs)]
  }

  /** Everything after the finish time. */
  function Back(d: Description): seq<string>
  {
    ListSegment("tags", d.tagKeys) + ["}"]
  }

  function Segments(d: Description): seq<string>
  {
    Front(d)
    + (if d.finishTimeMs.Some? then [FinishSegment(d.finishTimeMs.value)] else [])
    + Back(d)
  }

  /** The pieces appended one after another. */
  function Concat(parts: seq<string>): string
  {
    if |parts| == 0 then "" else Concat(parts[..|parts| - 1]) + parts[|parts| - 1]
  }

  function Render(d: Description): string
  {
    Concat(Segments(d))
  }

  /** `toString()` of the span state. */
  function ToString<C, E>(s: SpanState<C, E>, show: C -> string, order: seq<string>): string
    requires EnumeratesKeys(order, GetTags(s).Keys)
  {
    Render(Describe(s, show, order))
  }

  /** `part` occurs somewhere in `text`. */
  ghost predicate Contains(text: string, part: string)
  {
    exists i :: 0 <= i <= |text| && StartsWith(text[i..], part)
  }

  predicate StartsWith(text: string, part: string)
  {
    |part| <= |text| && text[..|part|] == part
  }

  lemma {:induction false} ConcatAppend(a: seq<string>, b: seq<string>)
    ensures Concat(a + b) == Concat(a) + Concat(b)
  {
    if |b| > 0 {
      ConcatAppend(a, b[..|b| - 1]);
      assert (a + b)[..|a + b| - 1] == a + b[..|b| - 1];
    } else {
      assert a + b == a;
    }
  }

  lemma ConcatSingle(p: string)
    ensures Concat([p]) == p
  {
    assert [p][..0] == [];
  }

  /** Every piece occurs in the appended text. */
  lemma ConcatContains(parts: seq<string>, p: string)
    requires p in parts
    ensures Contains(Concat(parts), p)
  {
    var i :| 0 <= i < |parts| && parts[i] == p;
    var before, after := parts[..i], parts[i + 1..];
    assert parts == before + [p] + after;
    ConcatAppend(before + [p], after);
    ConcatAppend(before, [p]);
    ConcatSingle(p);
    assert Concat(parts) == Concat(before) + p + Concat(after);
    ContainsInMiddle(Concat(before), p, Concat(after));
  }

  lemma ContainsInMiddle(a: string, p: string, b: string)
    ensures Contains(a + p + b, p)
  {
    var t := a + p + b;
    assert t[|a|..] == p + b;
    assert (p + b)[..|p|] == p;
    assert StartsWith(t[|a|..], p);
  }

  /** The line opens with the operation name in quotes and closes with a brace. */
  lemma ToStringFrame<C, E>(s: SpanState<C, E>, show: C -> string, order: seq<string>)
    requires EnumeratesKeys(order, GetTags(s).Keys)
    ensures var r := ToString(s, show, order);
      StartsWith(r, "Span{operationName='" + GetOperationName(s) + "'") && r[|r| - 1] == '}'
  {
    var parts := Segments(Describe(s, show, order));
    assert parts[0] == OpenSegment(GetOperationName(s));
    assert parts[|parts| - 1] == "}";
    ConcatFrame(parts);
  }

  /** The appended text starts with the first piece and ends with the last
      character of the last piece. */
  lemma ConcatFrame(parts: seq<string>)
    requires |parts| >= 2 && |parts[|parts| - 1]| > 0
    ensures var r := Concat(parts);
      StartsWith(r, parts[0]) && |r| > 0 && r[|r| - 1] == parts[|parts| - 1][|parts[|parts| - 1]| - 1]
  {
    var first, last := parts[0], parts[|parts| - 1];
    var middle := parts[1..|parts| - 1];
    assert parts == [first] + middle + [last];
    ConcatAppend([first] + middle, [last]);
    ConcatAppend([first], middle);
    ConcatSingle(first);
    ConcatSingle(last);
    var r := Concat(parts);
    assert r == first + Concat(middle) + last;
    assert r[..|first|] == first;
  }

  /** Tag values never reach the line: states that differ only in the values
      of their tags render identically. */
  lemma ToStringIgnoresTagValues<C, E>(s1: SpanState<C, E>, s2: SpanState<C, E>, show: C -> string, order: seq<string>)
    requires s1.(tags := None) == s2.(tags := None)
    requires GetTags(s1).Keys == GetTags(s2).Keys
    requires EnumeratesKeys(order, GetTags(s1).Keys)
    ensures ToString(s1, show, order) == ToString(s2, show, order)
  {
    assert |GetTags(s1)| == |GetTags(s1).Keys| == |GetTags(s2).Keys| == |GetTags(s2)|;
  }

  /** Setting the finish time of an unfinished span inserts exactly one
      `,finishTimeMs=` segment, holding the finish time in milliseconds, and
      leaves the rest of the line as it was. */
  lemma FinishSegmentInserted<C, E>(s: SpanState<C, E>, u: TimeUnit, t: Long, show: C -> string, order: seq<string>)
    requires GetFinishTime(s, u).Failure?
    requires EnumeratesKeys(order, GetTags(s).Keys)
    ensures var f := SetFinishTime(s, Some(u), t).value;
      var before := ToString(s, show, order);
      var after := ToString(f, show, order);
      exists i :: 0 <= i <= |before| &&
        after == before[..i] + FinishSegment(Convert(t, u, Milliseconds)) + before[i..]
  {
    var f := SetFinishTime(s, Some(u), t).value;
    assert f == s.(finishTimeUnit := Some(u), finishTimeStamp := t);
    assert GetTags(f) == GetTags(s);
    var d, e := Describe(s, show, order), Describe(f, show, order);
    var ms := Convert(t, u, Milliseconds);
    assert d.finishTimeMs.None? by {
      assert s.finishTimeUnit.None?;
    }
    assert e.finishTimeMs == Some(ms) by {
      assert GetFinishTime(f, Milliseconds) == Success(ms);
    }
    assert e == d.(finishTimeMs := Some(ms)) by {
      assert GetReferences(f, ChildOf) == GetReferences(s, ChildOf);
      assert GetReferences(f, FollowsFrom) == GetReferences(s, FollowsFrom);
      assert GetStartTime(f, Milliseconds) == GetStartTime(s, Milliseconds);
    }
    RenderInsertsFinish(d, ms);
    var k := |Concat(Front(d))|;
    var before, after := ToString(s, show, order), ToString(f, show, order);
    assert before == Render(d) && after == Render(e);
    assert 0 <= k <= |before| && after == before[..k] + FinishSegment(ms) + before[k..];
  }

  lemma RenderInsertsFinish(d: Description, ms: Long)
    requires d.finishTimeMs.None?
    ensures var before := Render(d);
      var k := |Concat(Front(d))|;
      k <= |before| && Render(d.(finishTimeMs := Some(ms))) == before[..k] + FinishSegment(ms) + before[k..]
  {
    var e := d.(finishTimeMs := Some(ms));
    var segment := FinishSegment(ms);
    var front, back := Concat(Front(d)), Concat(Back(d));
    assert Segments(d) == Front(d) + Back(d);
    ConcatAppend(Front(d), Back(d));
    assert Front(e) == Front(d) && Back(e) == Back(d);
    assert Segments(e) == Front(d) + [segment] + Back(d);
    ConcatAppend(Front(d) + [segment], Back(d));
    ConcatAppend(Front(d), [segment]);
    ConcatSingle(segment);
    var before := front + back;
    assert before[..|front|] == front && before[|front|..] == back;
  }

  /** The finish segment is present exactly when a finish time has been set,
      and then carries that time in milliseconds. */
  lemma FinishSegmentOnlyWhenFinished<C, E>(s: SpanState<C, E>, show: C -> string, order: seq<string>)
    requires EnumeratesKeys(order, GetTags(s).Keys)
    ensures GetFinishTime(s, Milliseconds).Failure? ==>
      ToString(s, show, order) == Concat(Front(Describe(s, show, order)) + Back(Describe(s, show, order)))
    ensures GetFinishTime(s, Milliseconds).Success? ==>
      Contains(ToString(s, show, order), FinishSegment(GetFinishTime(s, Milliseconds).value))
  {
    var d := Describe(s, show, order);
    if GetFinishTime(s, Milliseconds).Success? {
      var segment := FinishSegment(d.finishTimeMs.value);
      assert segment in Segments(d);
      ConcatContains(Segments(d), segment);
    } else {
      assert Segments(d) == Front(d) + Back(d);
    }
  }

  /** A non-empty child-of or follows-from list appears as its caption and the
      comma-joined rendered contexts in brackets. */
  lemma ReferencesRendered<C, E>(s: SpanState<C, E>, show: C -> string, order: seq<string>,
                                 referenceType: string, caption: string, refs: seq<C>)
    requires EnumeratesKeys(order, GetTags(s).Keys)
    requires (referenceType, caption) == (ChildOf, "childOf") || (referenceType, caption) == (FollowsFrom, "followsFrom")
    requires GetReferences(s, referenceType) == Some(refs) && |refs| > 0
    ensures Contains(ToString(s, show, order), ListText(caption, Shown(Some(refs), show).value))
  {
    var d := Describe(s, show, order);
    var segment := ListText(caption, Shown(Some(refs), show).value);
    if referenceType == ChildOf {
      assert ListSegment("childOf", d.childOf) == [segment];
    } else {
      assert ListSegment("followsFrom", d.followsFrom) == [segment];
    }
    assert segment in Front(d);
    assert segment in Segments(d);
    ConcatContains(Segments(d), segment);
  }

  /** Only the child-of and follows-from lists are shown, and an empty list
      is shown exactly like an absent one. */
  lemma OtherReferencesHidden<C, E>(s: SpanState<C, E>, show: C -> string, order: seq<string>,
                                    referenceType: string, refs: seq<C>)
    requires EnumeratesKeys(order, GetTags(s).Keys)
    ensures referenceType != ChildOf && referenceType != FollowsFrom ==>
      ToString(s.(references := s.references[referenceType := refs]), show, order) == ToString(s, show, order)
    ensures ToString(s.(references := s.references[referenceType := []]), show, order)
         == ToString(s.(references := s.references - {referenceType}), show, order)
  {
    var other := s.(references := s.references[referenceType := refs]);
    if referenceType != ChildOf && referenceType != FollowsFrom {
      assert Lookup(other.references, ChildOf) == Lookup(s.references, ChildOf);
      assert Lookup(other.references, FollowsFrom) == Lookup(s.references, FollowsFrom);
      SameShownSameLine(other, s, show, order);
    }
    var empty := s.(references := s.references[referenceType := []]);
    var absent := s.(references := s.references - {referenceType});
    assert Shown(Lookup(empty.references, ChildOf), show) == Shown(Lookup(absent.references, ChildOf), show);
    assert Shown(Lookup(empty.references, FollowsFrom), show) == Shown(Lookup(absent.references, FollowsFrom), show);
    SameShownSameLine(empty, absent, show, order);
  }

  /** States that agree outside their references, and show the same child-of
      and follows-from lists, render the same line. */
  lemma SameShownSameLine<C, E>(a: SpanState<C, E>, b: SpanState<C, E>, show: C -> string, order: seq<string>)
    requires a.(references := map[]) == b.(references := map[])
    requires Shown(GetReferences(a, ChildOf), show) == Shown(GetReferences(b, ChildOf), show)
    requires Shown(GetReferences(a, FollowsFrom), show) == Shown(GetReferences(b, FollowsFrom), show)
    requires EnumeratesKeys(order, GetTags(a).Keys)
    ensures ToString(a, show, order) == ToString(b, show, order)
  {
    assert GetTags(a) == GetTags(b);
    assert Describe(a, show, order) == Describe(b, show, order);
  }

  /** Log events never reach the line: the log list has no effect on it. */
  lemma ToStringIgnoresLogs<C, E>(s: SpanState<C, E>, logs: Option<seq<E>>, show: C -> string, order: seq<string>)
    requires EnumeratesKeys(order, GetTags(s).Keys)
    ensures ToString(s.(logs := logs), show, order) == ToString(s, show, order)
  {
    assert Describe(s.(logs := logs), show, order) == Describe(s, show, order);
  }

  /** The tag segment appears exactly when there is at least one tag, and
      then lists the keys in the map's iteration order; without tags no piece
      of the line opens with `,tags=[`. */
  lemma TagKeysRendered<C, E>(s: SpanState<C, E>, show: C -> string, order: seq<string>)
    requires EnumeratesKeys(order, GetTags(s).Keys)
    ensures |GetTags(s)| > 0 ==> Contains(ToString(s, show, order), ListText("tags", order))
    ensures |GetTags(s)| == 0 ==> ToString(s, show, order) == Render(Describe(s, show, order).(tagKeys := None))
    ensures |GetTags(s)| == 0 ==> forall p :: p in Segments(Describe(s, show, order)) ==> !StartsWith(p, ",tags=[")
  {
    var d := Describe(s, show, order);
    if |GetTags(s)| == 0 {
      TagsHiddenWhenEmpty(s, show, order);
    } else {
      var segment := ListText("tags", order);
      assert ListSegment("tags", d.tagKeys) == [segment];
      assert segment in Back(d);
      assert segment in Segments(d);
      ConcatContains(Segments(d), segment);
    }
  }

  /** The first three characters of a piece, which tell its kind apart
      (`'.'` stands in for missing ones). */
  function Opening(p: string): (char, char, char)
  {
    if |p| >= 3 then (p[0], p[1], p[2]) else ('.', '.', '.')
  }

  lemma ListTextOpening(caption: string, items: seq<string>)
    requires |caption| >= 2
    ensures Opening(ListText(caption, items)) == (',', caption[0], caption[1])
  {
    var t := ListText(caption, items);
    assert t == [','] + caption + ("=[" + Join(items) + "]");
  }

  lemma LiteralOpening(head: string, tail: string)
    requires |head| >= 3
    ensures Opening(head + tail) == Opening(head)
  {
  }

  /** A piece that starts with a text of three or more characters shares its
      opening. */
  lemma StartsWithOpening(p: string, q: string)
    requires |q| >= 3
    ensures StartsWith(p, q) ==> Opening(p) == Opening(q)
  {
    if StartsWith(p, q) {
      assert p[..|q|][0] == q[0] && p[..|q|][1] == q[1] && p[..|q|][2] == q[2];
    }
  }

  /** Every piece of the line is one of the seven kinds, each only when its
      field is shown. */
  lemma SegmentKinds(d: Description, p: string)
    requires p in Segments(d)
    ensures || p == OpenSegment(d.operationName)
            || (d.childOf.Some? && p == ListText("childOf", d.childOf.value))
            || (d.followsFrom.Some? && p == ListText("followsFrom", d.followsFrom.value))
            || p == ",startTimeMs=" + DecimalString(d.startTimeMs)
            || (d.finishTimeMs.Some? && p == FinishSegment(d.finishTimeMs.value))
            || (d.tagKeys.Some? && p == ListText("tags", d.tagKeys.value))
            || p == "}"
  {
  }

  /** A piece of the line opens with a list caption only when that list is
      shown. */
  lemma PieceOpenings(d: Description, p: string)
    requires p in Segments(d)
    ensures Opening(p) == (',', 'c', 'h') ==> d.childOf.Some?
    ensures Opening(p) == (',', 'f', 'o') ==> d.followsFrom.Some?
    ensures Opening(p) == (',', 't', 'a') ==> d.tagKeys.Some?
  {
    SegmentKinds(d, p);
    if p == OpenSegment(d.operationName) {
      var name := d.operationName;
      assert p == "Span{operationName='" + (name + "'");
      LiteralOpening("Span{operationName='", name + "'");
    } else if d.childOf.Some? && p == ListText("childOf", d.childOf.value) {
      ListTextOpening("childOf", d.childOf.value);
    } else if d.followsFrom.Some? && p == ListText("followsFrom", d.followsFrom.value) {
      ListTextOpening("followsFrom", d.followsFrom.value);
    } else if p == ",startTimeMs=" + DecimalString(d.startTimeMs) {
      LiteralOpening(",startTimeMs=", DecimalString(d.startTimeMs));
    } else if d.finishTimeMs.Some? && p == FinishSegment(d.finishTimeMs.value) {
      LiteralOpening(",finishTimeMs=", DecimalString(d.finishTimeMs.value));
    } else if d.tagKeys.Some? && p == ListText("tags", d.tagKeys.value) {
      ListTextOpening("tags", d.tagKeys.value);
    } else {
      assert p == "}";
    }
  }

  /** An absent or empty child-of or follows-from list leaves no piece of the
      line that opens with its caption. */
  lemma ReferencesHiddenWhenEmpty<C, E>(s: SpanState<C, E>, show: C -> string, order: seq<string>,
                                        referenceType: string, caption: string)
    requires EnumeratesKeys(order, GetTags(s).Keys)
    requires (referenceType, caption) == (ChildOf, "childOf") || (referenceType, caption) == (FollowsFrom, "followsFrom")
    requires GetReferences(s, referenceType).None? || |GetReferences(s, referenceType).value| == 0
    ensures forall p :: p in Segments(Describe(s, show, order)) ==> !StartsWith(p, "," + caption + "=[")
  {
    ListHidden(Describe(s, show, order), caption);
  }

  /** A span without tags leaves no piece of the line that opens with
      `,tags=[`. */
  lemma TagsHiddenWhenEmpty<C, E>(s: SpanState<C, E>, show: C -> string, order: seq<string>)
    requires EnumeratesKeys(order, GetTags(s).Keys)
    requires |GetTags(s)| == 0
    ensures forall p :: p in Segments(Describe(s, show, order)) ==> !StartsWith(p, ",tags=[")
  {
    ListHidden(Describe(s, show, order), "tags");
  }

  /** A list that is not shown leaves no piece that opens with its caption. */
  lemma ListHidden(d: Description, caption: string)
    requires || (caption == "childOf" && d.childOf.None?)
             || (caption == "followsFrom" && d.followsFrom.None?)
             || (caption == "tags" && d.tagKeys.None?)
    ensures forall p :: p in Segments(d) ==> !StartsWith(p, "," + caption + "=[")
  {
    forall p | p in Segments(d)
      ensures !StartsWith(p, "," + caption + "=[")
    {
      PieceHidden(d, caption, p);
    }
  }

  lemma PieceHidden(d: Description, caption: string, p: string)
    requires p in Segments(d)
    requires || (caption == "childOf" && d.childOf.None?)
             || (caption == "followsFrom" && d.followsFrom.None?)
             || (caption == "tags" && d.tagKeys.None?)
    ensures !StartsWith(p, "," + caption + "=[")
  {
    var opening := "," + caption + "=[";
    assert Opening(opening) == (',', caption[0], caption[1]);
    PieceOpenings(d, p);
    StartsWithOpening(p, opening);
  }
}

=== FILE: text.dfy ===
/** The two pieces of `StringBuilder` output the diagnostic string uses:
    comma-joined lists and the decimal form of a `long`. Each comes with
    a reading function that recovers what was written. */
module Text {
  import opened Wrappers

  /** Elements separated by single commas, in order: the loop
      `if (i > 0) append(","); append(item)`. */
  function Join(items: seq<string>): string
  {
    if |items| == 0 then ""
    else if |items| == 1 then items[0]
    else items[0] + "," + Join(items[1..])
  }

  /** The comma-separated fields of `s`; always at least one. */
  function Split(s: string): (fields: seq<string>)
    ensures |fields| >= 1
  {
    if |s| == 0 then [""]
    else
      var rest := Split(s[1..]);
      if s[0] == ',' then [""] + rest
      else [[s[0]] + rest[0]] + rest[1..]
  }

  predicate NoComma(s: string)
  {
    forall i :: 0 <= i < |s| ==> s[i] != ','
  }

  lemma {:induction false} SplitNoComma(s: string)
    requires NoComma(s)
    ensures Split(s) == [s]
  {
    if |s| > 0 {
      SplitNoComma(s[1..]);
      assert [s[0]] + s[1..] == s;
    }
  }

  lemma {:induction false} SplitField(field: string, rest: string)
    requires NoComma(field)
    ensures Split(field + "," + rest) == [field] + Split(rest)
  {
    if |field| == 0 {
      assert ("" + "," + rest)[1..] == rest;
    } else {
      var s := field + "," + rest;
      assert s[1..] == field[1..] + "," + rest;
      SplitField(field[1..], rest);
      assert [s[0]] + field[1..] == field;
    }
  }

  /** A non-empty list whose elements contain no comma is recovered
      exactly from its joined form. */
  lemma {:induction false} JoinSplitRoundTrip(items: seq<string>)
    requires |items| >= 1
    requires forall i :: 0 <= i < |items| ==> NoComma(items[i])
    ensures Split(Join(items)) == items
  {
    if |items| == 1 {
      SplitNoComma(items[0]);
    } else {
      JoinSplitRoundTrip(items[1..]);
      SplitField(items[0], Join(items[1..]));
      assert [items[0]] + items[1..] == items;
    }
  }

  function DigitChar(d: nat): (c: char)
    requires d < 10
    ensures '0' <= c <= '9'
  {
    (('0' as int) + d) as char
  }

  function DigitValue(c: char): nat
    requires '0' <= c <= '9'
  {
    (c as int) - ('0' as int)
  }

  predicate AllDigits(s: string)
  {
    forall i :: 0 <= i < |s| ==> '0' <= s[i] <= '9'
  }

  /** Decimal digits of `n`, most significant first, no leading zeros. */
  function NatDigits(n: nat): (s: string)
    ensures |s| >= 1 && AllDigits(s)
  {
    if n < 10 then [DigitChar(n)]
    else NatDigits(n / 10) + [DigitChar(n % 10)]
  }

  /** `Long.toString` / `StringBuilder.append(long)`: an optional minus sign
      followed by the decimal digits of the magnitude. */
  function DecimalString(n: int): string
  {
    if n < 0 then "-" + NatDigits(-n) else NatDigits(n)
  }

  function ParseDigits(s: string): nat
    requires AllDigits(s)
  {
    if |s| == 0 then 0
    else ParseDigits(s[..|s| - 1]) * 10 + DigitValue(s[|s| - 1])
  }

  /** Reads back an optionally signed decimal numeral. */
  function ParseDecimal(s: string): Option<int>
  {
    if |s| >= 2 && s[0] == '-' && AllDigits(s[1..]) then Some(-(ParseDigits(s[1..]) as int))
    else if |s| >= 1 && AllDigits(s) then Some(ParseDigits(s))
    else None
  }

  lemma {:induction false} DigitsRoundTrip(n: nat)
    ensures ParseDigits(NatDigits(n)) == n
  {
    if n >= 10 {
      DigitsRoundTrip(n / 10);
      var s := NatDigits(n);
      assert s[..|s| - 1] == NatDigits(n / 10);
    }
  }

  /** Every integer is read back from its decimal form. */
  lemma DecimalRoundTrip(n: int)
    ensures ParseDecimal(DecimalString(n)) == Some(n)
  {
    if n < 0 {
      ParseNegative(NatDigits(-n));
      DigitsRoundTrip(-n);
    } else {
      ParseNonNegative(NatDigits(n));
      DigitsRoundTrip(n);
    }
  }

  lemma ParseNegative(digits: string)
    requires |digits| >= 1 && AllDigits(digits)
    ensures ParseDecimal("-" + digits) == Some(-(ParseDigits(digits) as int))
  {
    var s := "-" + digits;
    assert s[0] == '-' && s[1..] == digits;
  }

  lemma ParseNonNegative(digits: string)
    requires |digits| >= 1 && AllDigits(digits)
    ensures ParseDecimal(digits) == Some(ParseDigits(digits))
  {
    assert digits[0] != '-';
  }
}

=== FILE: timeunits.dfy ===
/** The seven units of `java.util.concurrent.TimeUnit` and its `convert`
    operation on 64-bit `long` durations. */
module TimeUnits {

  const LongMin: int := -0x8000_0000_0000_0000
  const LongMax: int := 0x7fff_ffff_ffff_ffff

  /** A Java `long`. */
  type Long = x: int | LongMin <= x <= LongMax

  datatype TimeUnit = Nanoseconds | Microseconds | Milliseconds | Seconds | Minutes | Hours | Days

  /** Length of one unit in nanoseconds. */
  function Scale(u: TimeUnit): (n: nat)
    ensures n >= 1
  {
    match u
    case Nanoseconds => 1
    case Microseconds => 1_000
    case Milliseconds => 1_000_000
    case Seconds => 1_000_000_000
    case Minutes => 60_000_000_000
    case Hours => 3_600_000_000_000
    case Days => 86_400_000_000_000
  }

  /** Distinct units have distinct lengths, and a longer unit is a whole
      multiple of a shorter one. */
  lemma ScalesNest(a: TimeUnit, b: TimeUnit)
    ensures Scale(a) == Scale(b) <==> a == b
    ensures Scale(a) <= Scale(b) ==> Scale(b) % Scale(a) == 0
  {
  }

  /** Java's `/` on a positive divisor: the quotient rounded toward zero. */
  function JavaDiv(a: int, k: int): int
    requires k > 0
  {
    if a >= 0 then a / k else -((-a) / k)
  }

  /** `q` is `a / k` rounded toward zero: the remainder has the sign of `a`
      and is smaller than `k` in magnitude. */
  ghost predicate TruncatedQuotient(a: int, k: int, q: int)
    requires k > 0
  {
    var rem := a - q * k;
    if a >= 0 then 0 <= rem < k else -k < rem <= 0
  }

  lemma JavaDivTruncates(a: int, k: int)
    requires k > 0
    ensures TruncatedQuotient(a, k, JavaDiv(a, k))
    ensures a >= 0 ==> 0 <= JavaDiv(a, k) <= a
    ensures a < 0 ==> a <= JavaDiv(a, k) <= 0
  {
    if a >= 0 {
      NatDivision(a, k);
    } else {
      NatDivision(-a, k);
    }
  }

  /** Euclidean division of a natural number, spelled out for the solver. */
  lemma NatDivision(n: nat, k: int)
    requires k > 0
    ensures var q := n / k; 0 <= q <= n && q * k <= n < q * k + k
  {
    var q, r := n / k, n % k;
    assert n == q * k + r && 0 <= r < k;
    if q > n {
      MulMonotone(n + 1, q, k);
      MulMonotone(1, k, n + 1);
    }
  }

  /** The nearest `long` to `x`: the value an exact result saturates to. */
  function Clamp(x: int): Long
  {
    if x > LongMax then LongMax else if x < LongMin then LongMin else x
  }

  /** Java's guarded multiply in `TimeUnit`: `d * k`, or MAX / MIN once
      `d` is beyond `MAX / k` in magnitude. */
  function SaturatingMul(d: Long, k: int): (r: Long)
    requires k >= 1
    ensures r == Clamp(d * k)
  {
    var m := LongMax / k;
    MulGuards(d, k, m);
    if d > m then LongMax
    else if d < -m then LongMin
    else d * k
  }

  lemma MulGuards(d: int, k: int, m: int)
    requires k >= 1 && m == LongMax / k
    ensures d > m ==> d * k > LongMax
    ensures d < -m ==> d * k <= LongMin
    ensures -m <= d <= m ==> LongMin <= -LongMax <= d * k <= LongMax
  {
    assert m * k <= LongMax < m * k + k;
    if d > m {
      MulMonotone(m + 1, d, k);
    } else if d < -m {
      MulMonotone(d, -(m + 1), k);
    } else {
      MulMonotone(d, m, k);
      MulMonotone(-m, d, k);
    }
  }

  lemma MulMonotone(a: int, b: int, k: int)
    requires a <= b && k >= 0
    ensures a * k <= b * k
  {
  }

  /** `dst.convert(d, src)`: the duration `d` in unit `src` expressed in
      unit `dst`. Toward a coarser unit the quotient is truncated toward
      zero; toward a finer unit the product saturates at the `long` range. */
  function Convert(d: Long, src: TimeUnit, dst: TimeUnit): (r: Long)
    ensures src == dst ==> r == d
    ensures Scale(src) < Scale(dst) ==> TruncatedQuotient(d, Scale(dst) / Scale(src), r)
    ensures Scale(src) > Scale(dst) ==> r == Clamp(d * (Scale(src) / Scale(dst)))
  {
    ScalesNest(src, dst);
    if src == dst then d
    else if Scale(src) < Scale(dst) then
      var k := Scale(dst) / Scale(src);
      JavaDivTruncates(d, k);
      JavaDiv(d, k)
    else
      SaturatingMul(d, Scale(src) / Scale(dst))
  }

  /** Converting to a finer unit and back returns the original duration
      whenever the exact product fits in a `long`, i.e. the first step did
      not saturate. */
  lemma ConvertRoundTrip(d: Long, coarse: TimeUnit, fine: TimeUnit)
    requires Scale(fine) <= Scale(coarse)
    requires LongMin <= d * (Scale(coarse) / Scale(fine)) <= LongMax
    ensures Convert(Convert(d, coarse, fine), fine, coarse) == d
  {
    ScalesNest(fine, coarse);
    if coarse != fine {
      var k := Scale(coarse) / Scale(fine);
      var x := Convert(d, coarse, fine);
      assert x == d * k;
      var r := Convert(x, fine, coarse);
      assert TruncatedQuotient(x, k, r);
      assert TruncatedQuotient(x, k, d) by {
        assert x - d * k == 0;
      }
      TruncatedQuotientUnique(x, k, r, d);
    }
  }

  /** At most one quotient rounded toward zero exists. */
  lemma TruncatedQuotientUnique(a: int, k: int, q1: int, q2: int)
    requires k > 0
    requires TruncatedQuotient(a, k, q1) && TruncatedQuotient(a, k, q2)
    ensures q1 == q2
  {
    if q1 < q2 {
      MulMonotone(q1 + 1, q2, k);
    } else if q2 < q1 {
      MulMonotone(q2 + 1, q1, k);
    }
  }

  /** Conversion preserves the order of durations. */
  lemma ConvertMonotone(d1: Long, d2: Long, src: TimeUnit, dst: TimeUnit)
    requires d1 <= d2
    ensures Convert(d1, src, dst) <= Convert(d2, src, dst)
  {
    ScalesNest(src, dst);
    if Scale(src) < Scale(dst) {
      var k := Scale(dst) / Scale(src);
      JavaDivMonotone(d1, d2, k);
    } else if Scale(src) > Scale(dst) {
      MulMonotone(d1, d2, Scale(src) / Scale(dst));
    }
  }

  /** Every conversion is the exact duration in nanoseconds divided by the
      target unit, rounded toward zero, then saturated to the `long` range. */
  lemma ConvertViaNanos(d: Long, src: TimeUnit, dst: TimeUnit)
    ensures Convert(d, src, dst) == Clamp(JavaDiv(d * Scale(src), Scale(dst)))
  {
    ScalesNest(src, dst);
    var s, t := Scale(src), Scale(dst);
    var r := Convert(d, src, dst);
    if s == t {
      ExactQuotient(d, t);
    } else if s < t {
      var k := t / s;
      assert t == k * s;
      CoarserViaNanos(d, s, k, r);
    } else {
      var k := s / t;
      assert s == k * t;
      FinerViaNanos(d, t, k);
    }
  }

  lemma CoarserViaNanos(d: int, s: int, k: int, r: Long)
    requires s > 0 && k > 0
    requires TruncatedQuotient(d, k, r)
    ensures Clamp(JavaDiv(d * s, k * s)) == r
  {
    ScaledQuotient(d, k, s, r);
    JavaDivTruncates(d * s, k * s);
    TruncatedQuotientUnique(d * s, k * s, JavaDiv(d * s, k * s), r);
  }

  lemma FinerViaNanos(d: int, t: int, k: int)
    requires t > 0 && k > 0
    ensures JavaDiv(d * (k * t), t) == d * k
  {
    assert d * (k * t) == (d * k) * t;
    ExactQuotient(d * k, t);
  }

  /** Scaling dividend and divisor alike keeps the truncated quotient. */
  lemma ScaledQuotient(a: int, k: int, s: int, q: int)
    requires k > 0 && s > 0
    requires TruncatedQuotient(a, k, q)
    ensures TruncatedQuotient(a * s, k * s, q)
  {
    var rem := a - q * k;
    assert a * s - q * (k * s) == rem * s;
    if a >= 0 {
      MulMonotone(0, a, s);
      MulMonotone(0, rem, s);
      MulMonotone(rem, k - 1, s);
    } else {
      MulMonotone(a, -1, s);
      MulMonotone(rem, 0, s);
      MulMonotone(-(k - 1), rem, s);
    }
  }

  /** Dividing an exact multiple gives the multiplier back. */
  lemma ExactQuotient(m: int, s: int)
    requires s > 0
    ensures JavaDiv(m * s, s) == m
  {
    assert m * s - m * s == 0;
    if m >= 0 {
      MulMonotone(0, m, s);
    } else {
      MulMonotone(m, -1, s);
    }
    assert TruncatedQuotient(m * s, s, m);
    JavaDivTruncates(m * s, s);
    TruncatedQuotientUnique(m * s, s, JavaDiv(m * s, s), m);
  }

  /** Durations in any two units keep their order when both are converted to
      a common unit: the earlier instant never reads later. */
  lemma ConvertMonotoneAcrossUnits(d1: Long, u1: TimeUnit, d2: Long, u2: TimeUnit, w: TimeUnit)
    requires d1 * Scale(u1) <= d2 * Scale(u2)
    ensures Convert(d1, u1, w) <= Convert(d2, u2, w)
  {
    ConvertViaNanos(d1, u1, w);
    ConvertViaNanos(d2, u2, w);
    JavaDivMonotone(d1 * Scale(u1), d2 * Scale(u2), Scale(w));
  }

  lemma JavaDivMonotone(a: int, b: int, k: int)
    requires a <= b && k > 0
    ensures JavaDiv(a, k) <= JavaDiv(b, k)
  {
    JavaDivTruncates(a, k);
    JavaDivTruncates(b, k);
    var qa, qb := JavaDiv(a, k), JavaDiv(b, k);
    if qa > qb {
      MulMonotone(qb + 1, qa, k);
    }
  }
}

=== FILE: wrappers.dfy ===
/** Option stands for a Java reference that may be null; Result for a call that
    either returns a value or throws. */
module Wrappers {

  datatype Option<+T> = None | Some(value: T) {

    /** The wrapped value, or `default` when absent. */
    function GetOr(default: T): T {
      match this
      case Some(v) => v
      case None => default
    }
  }

  datatype Result<+R, +E> = Success(value: R) | Failure(error: E)

  /** Map lookup that answers absent (Java's `Map.get` returning null) for a missing key. */
  function Lookup<K, V>(m: map<K, V>, k: K): (r: Option<V>)
    ensures r.Some? <==> k in m
    ensures r.Some? ==> m[k] == r.value
  {
    if k in m then Some(m[k]) else None
  }
}
